=== FILE: README.md ===
# Duplicate annexed files: a Dafny model

This project models the analysis core of `find-duplicate-annexed.py`, a
helper script of a set of datalad procedures. The script reads the listing
`git annex find --format='${key} ${file}\n'` prints: one line per annexed file,
made of the file's content key and its path. It groups paths by key and
reports the keys that several paths point to. The model covers four stages,
each written as pure functions over strings and sequences.

1. **Parsing and grouping** (`parse_annexed_files`). This is modelled in
   `inventory.dfy` and `grouping.dfy`.
   - Blank lines and lines without a space are skipped.
   - Every other line splits at its first space into a `Record(key, path)`.
   - Records are grouped into an association list of `Group(key, paths)`.
     It has distinct keys in first-seen order, which is the iteration order
     of the source's `defaultdict`.
   - Every result is compared with two independent reference definitions:
     `FirstSeen` (the keys in order of first appearance) and `Select` (one
     key's paths in input order).
2. **Duplicate selection** (`find_duplicates` and the `--min-duplicates`
   comprehension in `main`). This is in `duplicates.dfy`.
3. **Size decoding** (`format_size`). This is in `keydecoder.dfy`.
   - The size field is found with a model of Python's `str.split` (in
     `text.dfy`).
   - It is parsed as a decimal number.
   - It is given a unit from B to TB by the divide-by-1024 ladder.
   - The unit ladder is modelled with exact `real` division. This gives the
     same unit as the source's float arithmetic, for two reasons:
     - Below 2^53 bytes the size is exact in a double, so its first quotient
       by 1024 is exact. Each later division of a double by 1024 is exact too.
     - From 2^53 bytes on, every quotient the loop compares with 1024 is at
       least 2^53 / 1024^3 = 2^23. The rounded quotients are also at least
       2^23, because 2^23 is itself a double and correct rounding is
       monotone. So the exact and the source's comparisons all fail, and
       both give TB.
   - The source as written fails for sizes too large for a double; that is
     modelled separately (see "## Findings").
4. **The report** (the rest of `main`). This is in `pathorder.dfy`,
   `ordering.dfy` and `report.dfy`.
   - The four summary counts.
   - The stable largest-first sort of the duplicate sets, numbered from 1.
   - Python's string order and `sorted` on each set's paths.
   - The 70-character path elision.
   - `Report.Run`, which puts the stages together for one set of options.

The inventory lines are a parameter. The printed text is replaced by the data
each line would show.

All functions are pure, so none of the filtering steps can change the grouping
they are given. The source has the same property: it builds new dicts and
never mutates `key_to_files`.

## Model

| member | source | states |
|---|---|---|
| Text.FindFrom | code/find-duplicate-annexed.py:38 | the result is the least index at or after the start where the pattern occurs, or none when it occurs nowhere after it |
| Text.Split | code/find-duplicate-annexed.py:62 | `split(sep)` yields at least one piece; the pieces joined with the separator give back the string; no piece contains the separator; there are two or more pieces exactly when the string contains the separator |
| Inventory.ParseLine | code/find-duplicate-annexed.py:34-41 | a line yields a record exactly when it is not whitespace-only and holds a space; the key has no space; `key + " " + path` is the line |
| Inventory.RecordsRejoinToKeptLines | code/find-duplicate-annexed.py:34-41 | parsing loses and invents nothing: rejoining the records gives exactly the kept lines, in order, one record each |
| Inventory.Records | code/find-duplicate-annexed.py:34-41 | the records of the kept lines, in input order, never more than there are lines; no record's key contains a space, because the line was cut at its first space |
| Grouping.Insert | code/find-duplicate-annexed.py:41 | a new key opens a group at the end; an existing key keeps the list's length and key order; the path count grows by exactly one |
| Grouping.InsertInPlace | code/find-duplicate-annexed.py:41 | with distinct keys, the append changes only the record's own group, adding the path at its end, and keys stay distinct |
| Grouping.Build | code/find-duplicate-annexed.py:32-43 | feeding the records one by one to the append keeps the keys distinct and the path count equal to the number of records |
| Grouping.BuildGroupsByFirstSeenKey | code/find-duplicate-annexed.py:32-43 | the groups' keys are the input keys in first-seen order, without repeats, and each group holds exactly its key's paths in input order |
| Grouping.GroupingCompleteAndDisjoint | code/find-duplicate-annexed.py:32-43 | every key's lookup yields exactly its records' paths in input order, and the group sizes add up to the number of records |
| Grouping.GroupSizesAreKeyCounts | code/find-duplicate-annexed.py:32-43 | for t >= 1, some group has at least t paths exactly when some key occurs on at least t records |
| Grouping.ParseAnnexedFiles | code/find-duplicate-annexed.py:30-43 | the loop over the lines computes the grouping `Build` of the parsed records: first-seen keys, distinct keys, each key's paths in input order, and as many paths as kept lines |
| Duplicates.FindDuplicates | code/find-duplicate-annexed.py:46-54 | keeps exactly the groups with more than one path, unchanged and in order, as a sub-list; distinct keys stay distinct |
| Duplicates.AtLeast | code/find-duplicate-annexed.py:105-107 | keeps exactly the groups with at least m paths, for any integer m, as an order-preserving sub-list |
| Duplicates.FindDuplicatesIsAtLeastTwo | code/find-duplicate-annexed.py:46-54 | `find_duplicates` is the threshold filter at 2 |
| Duplicates.AtLeastTwice | code/find-duplicate-annexed.py:105-107 | filtering by a and then by b is filtering once by max(a, b) |
| Duplicates.Reported | code/find-duplicate-annexed.py:102-107 | `find_duplicates` followed by the `len(v) >= m` filter keeps exactly the groups with at least max(2, m) paths |
| Duplicates.ThresholdOneIsTwo | code/find-duplicate-annexed.py:105-107 | every threshold up to 2, including 1, 0 and negatives, reports the same as the default 2 |
| Duplicates.ThresholdMonotone | code/find-duplicate-annexed.py:105-107 | for m1 <= m2 the result for m2 is the result for m1 filtered again, hence a sub-list of it |
| Duplicates.NothingReported | code/find-duplicate-annexed.py:105-107 | nothing is reported exactly when every group has fewer than max(2, m) paths |
| Duplicates.SubsequenceTotalPaths | code/find-duplicate-annexed.py:110-111 | a sub-list of groups never has more paths than the list |
| KeyDecoder.DecimalString | code/find-duplicate-annexed.py:63 | the decimal spelling of a number is a non-empty digit string |
| KeyDecoder.ParseNat | code/find-duplicate-annexed.py:63 | a text parses exactly when it is a non-empty string of ASCII digits, and a k-digit text is worth less than 10^k |
| KeyDecoder.ParseNatRoundTrip | code/find-duplicate-annexed.py:63 | parsing the decimal spelling of n gives back n |
| KeyDecoder.SizeText | code/find-duplicate-annexed.py:61-62 | there is a size text exactly when the key contains "-s" |
| KeyDecoder.Ladder | code/find-duplicate-annexed.py:66-70 | the loop stops at the first unit whose scaled size is below 1024, having passed only units where it was at least 1024; falling out of the loop gives TB |
| KeyDecoder.PickUnit | code/find-duplicate-annexed.py:66-70 | the size in the chosen unit is at least 1 (above B) and below 1024 (below TB) |
| KeyDecoder.PickUnitMatchesThresholds | code/find-duplicate-annexed.py:66-70 | the unit is B, KB, MB, GB or TB by the thresholds 2^10, 2^20, 2^30 and 2^40 |
| KeyDecoder.PickUnitMagnitude | code/find-duplicate-annexed.py:66-70 | the size in the chosen unit is at least 1 unless the unit is B and below 1024 unless it is TB |
| KeyDecoder.FormatSize | code/find-duplicate-annexed.py:57-74 | a size is shown exactly when the key has "-s" and the cut text is decimal; the bytes are its value; the shown magnitude lies in [1, 1024) apart from the B and TB ends |
| KeyDecoder.FormatSizeAsWritten | code/find-duplicate-annexed.py:57-74 | for size fields of ASCII digits, `format_size` as written raises `OverflowError` exactly when the size field decodes to a number at or above the overflow bound; every other key gets the corrected label |
| KeyDecoder.ScaleSplit | code/find-duplicate-annexed.py:69 | 1024^(a + b) is 1024^a times 1024^b; the power-of-1024 helper behind `OverflowBoundValue` |
| KeyDecoder.OverflowBoundIsRoundingMidpoint | code/find-duplicate-annexed.py:69 | the overflow bound is 1024 times the midpoint between the largest double, (2^53 - 1) * 2^971, and 2^1024, where round-half-to-even leaves the finite range |
| KeyDecoder.OverflowBoundValue | code/find-duplicate-annexed.py:69 | the overflow bound is (2^54 - 1) * 2^980 |
| KeyDecoder.SegmentAfterMarker | code/find-duplicate-annexed.py:62 | behind a backend free of "-s", the second piece of `split("-s")` is the text after the marker up to the next "-s" |
| KeyDecoder.EmbeddedSizeText | code/find-duplicate-annexed.py:59-62 | for `<backend>-s<n>--<rest>` with no "-s" in the backend and a rest not starting with 's', the text parsed is the decimal spelling of n |
| KeyDecoder.EmbeddedSizeDecodes | code/find-duplicate-annexed.py:57-70 | such a key decodes to n bytes in the unit chosen by the 2^10 thresholds |
| KeyDecoder.OverflowAtBound | code/find-duplicate-annexed.py:66-71 | every such key with n at or above the bound makes the source raise `OverflowError`, where the corrected decoder shows n in TB |
| KeyDecoder.ExampleOverflow | code/find-duplicate-annexed.py:66-71 | the key `MD5E-s<10^320>--x` makes the source raise `OverflowError`, while the corrected decoder shows 10^320 bytes in TB |
| KeyDecoder.NameStartingWithSIsUnknown | code/find-duplicate-annexed.py:60-74 | when the name part after "--" begins with 's', the size is unknown |
| KeyDecoder.ExampleKilobytes | code/find-duplicate-annexed.py:59-68 | `MD5E-s2048--abcdef.png` is 2048 bytes in KB, magnitude 2.0 |
| KeyDecoder.NoSizeFieldIsUnknown | code/find-duplicate-annexed.py:61-74 | every key without "-s" has unknown size |
| KeyDecoder.ExampleNoSizeField | code/find-duplicate-annexed.py:59-74 | the key `WORM-v1--xyz` has unknown size |
| PathOrder.BelowIsFirstDifference | code/find-duplicate-annexed.py:138 | `Below`, the model of Python's `<` on strings, holds exactly when the strings agree up to some position where the first has ended while the second goes on, or has the smaller code point |
| PathOrder.BelowIrreflexive | code/find-duplicate-annexed.py:138 | no string sorts before itself |
| PathOrder.BelowAsymmetric | code/find-duplicate-annexed.py:138 | two strings never each sort before the other |
| PathOrder.BelowTransitive | code/find-duplicate-annexed.py:138 | string order is transitive |
| PathOrder.BelowTotal | code/find-duplicate-annexed.py:138 | any two different strings are ordered one way or the other |
| PathOrder.InsertPath | code/find-duplicate-annexed.py:138 | inserting adds exactly the one path |
| PathOrder.InsertPathSorted | code/find-duplicate-annexed.py:138 | inserting into a sorted list keeps it sorted |
| PathOrder.SortPaths | code/find-duplicate-annexed.py:138 | the result is a permutation of the paths and sorted in Python's string order |
| PathOrder.SortedUnique | code/find-duplicate-annexed.py:138 | two sorted permutations of the same paths are equal, so the sort result is determined |
| Ordering.InsertBySize | code/find-duplicate-annexed.py:130-131 | inserting adds exactly the one group |
| Ordering.InsertBySizeOrdered | code/find-duplicate-annexed.py:130-131 | inserting keeps the path counts non-increasing |
| Ordering.InsertBySizeTies | code/find-duplicate-annexed.py:130-131 | the inserted group comes before the groups of its own size |
| Ordering.SortBySize | code/find-duplicate-annexed.py:130-131 | the result is a permutation of the groups with non-increasing path counts |
| Ordering.SortBySizeIsStable | code/find-duplicate-annexed.py:130-131 | groups of equal size keep their relative order, which is first-seen key order |
| Report.ExcessIsPathsMinusGroups | code/find-duplicate-annexed.py:111-119 | the sum of (len - 1) over the groups is the path total minus the number of groups |
| Report.ExcessOfDuplicates | code/find-duplicate-annexed.py:119 | over groups of two or more paths, the wasted copies are at least the number of groups |
| Report.SummaryCounts | code/find-duplicate-annexed.py:109-120 | the duplicate files are at most the total; the wasted copies are the sum of (len - 1) and at least the number of groups; no groups means no duplicate files and no wasted copies |
| Report.Summarize | code/find-duplicate-annexed.py:110-119 | the totals are the path count of all groups and of the reported groups, the number of reported groups, and the sum of (len - 1) over the reported groups as the wasted copies |
| Report.Elide | code/find-duplicate-annexed.py:142-146 | the shown path has at most 70 characters; a path is shown unchanged exactly when it has at most 70; a longer one becomes "..." and its last 67 characters |
| Report.Display | code/find-duplicate-annexed.py:139-146 | with `--verbose`, or for a path of at most 70 characters, the path is shown unchanged; otherwise it is shown as "..." and its last 67 characters, at most 70 in all |
| Report.Number | code/find-duplicate-annexed.py:130-132 | one entry per group, the i-th numbered first + i and made from the i-th group |
| Report.NumberKeepsTies | code/find-duplicate-annexed.py:130-132 | numbering keeps the order of the groups of each size |
| Report.MakeEntry | code/find-duplicate-annexed.py:133-146 | an entry carries its group's key, its decoded size, its copy count, and its paths sorted in string order, in full with `--verbose` and elided without |
| Report.Listing | code/find-duplicate-annexed.py:130-132 | one entry per reported group, numbered 1 to k, with copy counts non-increasing |
| Report.ListingCountsAtLeast | code/find-duplicate-annexed.py:130-136 | when every reported group has at least t paths, every entry shows at least t copies |
| Report.ListingKeepsTies | code/find-duplicate-annexed.py:130-132 | the entries with n copies list their keys in first-seen order |
| Report.ListingListsEveryGroup | code/find-duplicate-annexed.py:130-136 | every reported group has an entry |
| Report.ListingEntryShowsGroup | code/find-duplicate-annexed.py:130-146 | every entry shows a reported group: its decoded size, its copy count and all its paths, sorted, and elided unless verbose |
| Report.Run | code/find-duplicate-annexed.py:104-146 | the result is the summary exactly when `--summary` is given; a listing is never empty, is numbered from 1, and every set in it has at least max(2, m) copies |
| Report.NothingReportedForRecords | code/find-duplicate-annexed.py:105-107 | nothing is reported exactly when no key occurs on max(2, m) or more records |
| Report.RunReportsNoDuplicates | code/find-duplicate-annexed.py:123-125 | the no-duplicates notice appears exactly when not in summary mode and no key has max(2, m) kept lines |
| Report.RunSummary | code/find-duplicate-annexed.py:109-121 | summary mode counts every kept line as a file, with duplicates at most the total and wasted copies at least the groups |

## Left out

- `get_annexed_files` (lines 15-27) is not modelled. It runs `git annex find`, exits on failure, and strips and splits the output. All of this is process I/O, so the model takes the lines as a parameter.
- Argument parsing (lines 78-93) is not modelled. The flags arrive as `Report.Options`, and how argparse turns the `--min-duplicates` text into an integer is not modelled.
- The printed text is not modelled: the banner, the summary wording, the "=" rule and the layout of each entry (lines 95, 114-128, 134-146). `Report.Run` returns the data those lines show.
- KeyDecoder.FormatSize: the one-decimal float rendering `f"{size_bytes:.1f}"` (lines 68-70) is not modelled. A label holds the byte count and the unit, and `Magnitude` gives the exact quotient before rounding.
- KeyDecoder.ParseNat: Python's `int()` also accepts a sign, surrounding whitespace, `_` separators and non-ASCII decimal digits. The model accepts only non-empty ASCII digit strings, so such keys show "unknown size" in the model.
- KeyDecoder.ParseNat: Python versions with the int/str digit limit (3.11 and later, 3.10.7 and later, 3.9.14 and later) refuse digit strings longer than 4300 characters with `ValueError`, which the source turns into "unknown size". The model parses them.
- KeyDecoder.FormatSizeAsWritten: because of that same digit limit, on Python versions with the int/str digit limit (3.11 and later, 3.10.7 and later, 3.9.14 and later) a size field longer than 4300 digits gives "unknown size" rather than `OverflowError`. The "raises exactly" contract therefore holds for size fields of at most 4300 characters on those versions. It holds for every length only on 3.9.0 to 3.9.13 and 3.10.0 to 3.10.6. The script needs at least 3.9, since the annotation `list[str]` at line 30 is evaluated when the function is defined. The contract also covers only size fields of ASCII digits: the source has a second uncaught `OverflowError` that the `ParseNat` narrowing hides. A negative size field such as `-1` followed by 320 zeros passes `int()` at line 63 and is below 1024 at line 67. Line 68 then formats it with `.1f`, which converts the `int` to a float and raises `OverflowError` for every magnitude at or above (2^54 - 1) * 2^970. The model rejects the sign and gives "unknown size".
- Report.Run: the listing uses the corrected `FormatSize`. For a key whose size is at or above the overflow bound, the source's `main` raises `OverflowError` at line 133 after printing the entries before it. The model lists that set with its size in TB. `Report.Listing`, `Report.MakeEntry` and `Report.ListingEntryShowsGroup` make the same choice.
- Text.IsBlank: strings are sequences of code points. Lone surrogates and other encoding questions are not modelled.
- Text.Split: the contract does not pin the split down on its own when the separator can overlap itself, as "--" can. `KeyDecoder.SplitFirstPiece` states the leftmost cut that Python makes.
- The datalad procedures `cfg_init.py`, `cfg_init-no-folders.py` and `archive/cfg_branch.py` are not part of this model. They write fixed configuration text through an external library and have no algorithmic content.

## Findings

| source | as written | input that shows it | evidently intended | confidence | as-written member | corrected member |
|---|---|---|---|---|---|---|
| code/find-duplicate-annexed.py:69-71 | `size_bytes /= 1024` divides the parsed `int` by an `int`. Python raises `OverflowError` when the quotient does not fit a double, which is for every size at or above (2^54 - 1) * 2^980. On Python versions with the int/str digit limit (3.11 and later, 3.10.7 and later, 3.9.14 and later), size fields longer than 4300 digits fail `int()` first and give "unknown size". The handler catches only `ValueError` and `IndexError`, so the error escapes `format_size` and ends the run. A second escape goes through line 68. A negative size field of magnitude at least (2^54 - 1) * 2^970 is below 1024, and its `.1f` formatting converts it to a float, which raises `OverflowError`. That second escape is not modelled, because the model's `int()` rejects signs (see the `KeyDecoder.FormatSizeAsWritten` line under "## Left out"). | a key `MD5E-s<n>--x` where n is 1 followed by 320 zeros (321 digits, within the 4300-digit limit of the Python versions that have one) | every key gets a label, as the `try`/`except` fallback to "unknown size" intends; such sizes are shown in TB | not executed | KeyDecoder.FormatSizeAsWritten, KeyDecoder.OverflowAtBound, KeyDecoder.ExampleOverflow | KeyDecoder.FormatSize |

Keys in which the name part after "--" starts with 's' are a related quirk, but
not a finding. For example, in `SHA256E-s12--sdata` the second "-s" cuts the
size text to `12-`, so the size is "unknown size" (`KeyDecoder.NameStartingWithSIsUnknown`).
A key whose part after "--" is a hexadecimal hash never begins with 's', so
hash-based keys do not reach this case.

=== FILE: duplicates.dfy ===
/** Duplicate selection: `find_duplicates` keeps the keys with more than one
    path, and `main` then keeps those with at least `--min-duplicates` paths. */
module Duplicates {
  import opened Grouping

  /** `a` is `b` with some elements dropped, the rest in their order. */
  predicate IsSubsequence<T(==)>(a: seq<T>, b: seq<T>)
    decreases |b|
  {
    if |a| == 0 then true
    else if |b| == 0 then false
    else (a[0] == b[0] && IsSubsequence(a[1..], b[1..])) || IsSubsequence(a, b[1..])
  }

  /** `find_duplicates`: the groups with more than one path, unchanged and in
      their order. */
  function FindDuplicates(gs: seq<Group>): (d: seq<Group>)
    ensures forall g :: g in d <==> g in gs && |g.paths| > 1
    ensures IsSubsequence(d, gs)
    ensures DistinctKeys(gs) ==> DistinctKeys(d)
  {
    if |gs| == 0 then []
    else if |gs[0].paths| > 1 then [gs[0]] + FindDuplicates(gs[1..])
    else FindDuplicates(gs[1..])
  }

  /** The comprehension `{k: v for k, v in ... if len(v) >= m}`; `m` is any
      integer the command line accepts, zero and negatives included. */
  function AtLeast(gs: seq<Group>, m: int): (d: seq<Group>)
    ensures forall g :: g in d <==> g in gs && |g.paths| >= m
    ensures IsSubsequence(d, gs)
    ensures DistinctKeys(gs) ==> DistinctKeys(d)
  {
    if |gs| == 0 then []
    else if |gs[0].paths| >= m then [gs[0]] + AtLeast(gs[1..], m)
    else AtLeast(gs[1..], m)
  }

  /** The groups `main` reports for threshold `m`: exactly those with at
      least max(2, m) paths. */
  function Reported(gs: seq<Group>, m: int): (d: seq<Group>)
    ensures d == AtLeast(gs, Max(2, m))
  {
    FindDuplicatesIsAtLeastTwo(gs);
    AtLeastTwice(gs, 2, m);
    AtLeast(FindDuplicates(gs), m)
  }

  function Max(a: int, b: int): int {
    if a < b then b else a
  }

  lemma {:induction false} FindDuplicatesIsAtLeastTwo(gs: seq<Group>)
    ensures FindDuplicates(gs) == AtLeast(gs, 2)
  {
    if |gs| > 0 {
      FindDuplicatesIsAtLeastTwo(gs[1..]);
    }
  }

  /** Filtering twice is filtering once by the larger threshold. */
  lemma {:induction false} AtLeastTwice(gs: seq<Group>, a: int, b: int)
    ensures AtLeast(AtLeast(gs, a), b) == AtLeast(gs, Max(a, b))
  {
    if |gs| > 0 {
      AtLeastTwice(gs[1..], a, b);
    }
  }

  /** `--min-duplicates 1` (or less) reports the same as the default 2. */
  lemma ThresholdOneIsTwo(gs: seq<Group>, m: int)
    requires m <= 2
    ensures Reported(gs, m) == Reported(gs, 2)
  {
    assert Max(2, m) == 2;
  }

  /** Raising the threshold only drops groups: the result for `m2` is the
      result for `m1` filtered again, hence a sub-list of it. */
  lemma ThresholdMonotone(gs: seq<Group>, m1: int, m2: int)
    requires m1 <= m2
    ensures Reported(gs, m2) == AtLeast(Reported(gs, m1), m2)
    ensures IsSubsequence(Reported(gs, m2), Reported(gs, m1))
  {
    AtLeastTwice(gs, Max(2, m1), m2);
  }

  /** Nothing is reported exactly when no group reaches max(2, m) paths. */
  lemma NothingReported(gs: seq<Group>, m: int)
    ensures Reported(gs, m) == [] <==> forall g | g in gs :: |g.paths| < Max(2, m)
  {
    var r := Reported(gs, m);
    if r != [] {
      assert r[0] in r;
    }
  }

  /** Dropping groups never adds paths. */
  lemma {:induction false} SubsequenceTotalPaths(a: seq<Group>, b: seq<Group>)
    requires IsSubsequence(a, b)
    ensures TotalPaths(a) <= TotalPaths(b)
    decreases |b|
  {
    if |a| > 0 {
      if a[0] == b[0] && IsSubsequence(a[1..], b[1..]) {
        SubsequenceTotalPaths(a[1..], b[1..]);
      } else {
        SubsequenceTotalPaths(a, b[1..]);
      }
    }
  }
}

=== FILE: grouping.dfy ===
/** Grouping of records by key (`parse_annexed_files`). The source keeps a
    Python dict of lists, whose iteration order is first insertion; here the
    dict is an association list with distinct keys, in that same order. */
module Grouping {
  import opened Inventory

  /** The paths sharing one content key, in the order they were appended. */
  datatype Group = Group(key: string, paths: seq<string>)

  function Keys(gs: seq<Group>): seq<string>
  {
    seq(|gs|, i requires 0 <= i < |gs| => gs[i].key)
  }

  lemma KeysConcat(a: seq<Group>, b: seq<Group>)
    ensures Keys(a + b) == Keys(a) + Keys(b)
  {
    assert forall i | 0 <= i < |a + b| :: Keys(a + b)[i] == (Keys(a) + Keys(b))[i];
  }

  predicate DistinctKeys(gs: seq<Group>) {
    forall i, j | 0 <= i < j < |gs| :: gs[i].key != gs[j].key
  }

  /** Total number of paths over all groups. */
  function TotalPaths(gs: seq<Group>): nat
  {
    if |gs| == 0 then 0 else |gs[0].paths| + TotalPaths(gs[1..])
  }

  /** The paths stored under `key`, or none when the key is absent. */
  function Lookup(gs: seq<Group>, key: string): seq<string>
  {
    if |gs| == 0 then []
    else if gs[0].key == key then gs[0].paths
    else Lookup(gs[1..], key)
  }

  /** `key_to_files[key].append(filepath)`: an existing key's list grows by
      one path at its end, in place; a new key opens a group at the end. */
  function Insert(gs: seq<Group>, r: Record): (out: seq<Group>)
    ensures r.key !in Keys(gs) ==> out == gs + [Group(r.key, [r.path])]
    ensures r.key in Keys(gs) ==> |out| == |gs| && Keys(out) == Keys(gs)
    ensures TotalPaths(out) == TotalPaths(gs) + 1
  {
    if |gs| == 0 then [Group(r.key, [r.path])]
    else
      assert gs == [gs[0]] + gs[1..];
      KeysConcat([gs[0]], gs[1..]);
      if gs[0].key == r.key then
        var grown := Group(r.key, gs[0].paths + [r.path]);
        KeysConcat([grown], gs[1..]);
        assert Keys([grown]) == [r.key] == Keys([gs[0]]);
        assert ([grown] + gs[1..])[1..] == gs[1..];
        [grown] + gs[1..]
      else
        var tail := Insert(gs[1..], r);
        KeysConcat([gs[0]], tail);
        assert ([gs[0]] + tail)[1..] == tail;
        [gs[0]] + tail
  }

  lemma SameKeysDistinct(a: seq<Group>, b: seq<Group>)
    requires DistinctKeys(a) && Keys(a) == Keys(b)
    ensures DistinctKeys(b)
  {
    forall i, j | 0 <= i < j < |b|
      ensures b[i].key != b[j].key
    {
      assert Keys(a)[i] == Keys(b)[i] && Keys(a)[j] == Keys(b)[j];
    }
  }

  lemma ConsDistinct(g: Group, gs: seq<Group>)
    requires DistinctKeys(gs)
    requires forall j | 0 <= j < |gs| :: gs[j].key != g.key
    ensures DistinctKeys([g] + gs)
  {
    var out := [g] + gs;
    forall i, j | 0 <= i < j < |out|
      ensures out[i].key != out[j].key
    {
      assert out[j] == gs[j - 1];
      if i > 0 {
        assert out[i] == gs[i - 1];
      }
    }
  }

  /** With distinct keys, `Insert` changes the one group of the record's key
      and no other. */
  lemma {:induction false} InsertInPlace(gs: seq<Group>, r: Record)
    requires DistinctKeys(gs)
    ensures DistinctKeys(Insert(gs, r))
    ensures forall i | 0 <= i < |gs| ::
      Insert(gs, r)[i] == if gs[i].key == r.key then Group(r.key, gs[i].paths + [r.path]) else gs[i]
  {
    if |gs| == 0 {
      return;
    }
    var out := Insert(gs, r);
    if gs[0].key == r.key {
      assert Keys(gs)[0] == r.key;
      SameKeysDistinct(gs, out);
      forall i | 0 < i < |gs|
        ensures out[i] == gs[i] && gs[i].key != r.key
      {
        assert out[i] == gs[1..][i - 1];
      }
    } else {
      var tail := Insert(gs[1..], r);
      InsertInPlace(gs[1..], r);
      assert out == [gs[0]] + tail;
      forall j | 0 <= j < |tail|
        ensures tail[j].key != gs[0].key
      {
        if j < |gs| - 1 {
          assert gs[1..][j] == gs[j + 1];
        } else {
          assert r.key !in Keys(gs[1..]);
          assert tail[j] == Group(r.key, [r.path]);
        }
      }
      ConsDistinct(gs[0], tail);
      forall i | 0 < i < |gs|
        ensures out[i] == if gs[i].key == r.key then Group(r.key, gs[i].paths + [r.path]) else gs[i]
      {
        assert out[i] == tail[i - 1] && gs[1..][i - 1] == gs[i];
      }
    }
  }

  /** The grouping of a record sequence, fed to `Insert` one by one. */
  function Build(rs: seq<Record>): (gs: seq<Group>)
    ensures DistinctKeys(gs)
    ensures TotalPaths(gs) == |rs|
    decreases |rs|
  {
    if |rs| == 0 then []
    else
      var init := Build(rs[..|rs| - 1]);
      InsertInPlace(init, rs[|rs| - 1]);
      Insert(init, rs[|rs| - 1])
  }

  /** Reference definition: the keys of `rs` in order of first appearance. */
  function FirstSeen(rs: seq<Record>): seq<string>
    decreases |rs|
  {
    if |rs| == 0 then []
    else
      var ks := FirstSeen(rs[..|rs| - 1]);
      if rs[|rs| - 1].key in ks then ks else ks + [rs[|rs| - 1].key]
  }

  /** Reference definition: the paths of the records with key `k`, in input order. */
  function Select(rs: seq<Record>, k: string): seq<string>
    decreases |rs|
  {
    if |rs| == 0 then []
    else
      var init := Select(rs[..|rs| - 1], k);
      if rs[|rs| - 1].key == k then init + [rs[|rs| - 1].path] else init
  }

  lemma {:induction false} FirstSeenFacts(rs: seq<Record>)
    ensures forall i, j | 0 <= i < j < |FirstSeen(rs)| :: FirstSeen(rs)[i] != FirstSeen(rs)[j]
    ensures forall k :: k in FirstSeen(rs) <==> exists i | 0 <= i < |rs| :: rs[i].key == k
    ensures forall k :: k !in FirstSeen(rs) ==> Select(rs, k) == []
    decreases |rs|
  {
    if |rs| > 0 {
      var init := rs[..|rs| - 1];
      FirstSeenFacts(init);
      forall k
        ensures k in FirstSeen(rs) <==> exists i | 0 <= i < |rs| :: rs[i].key == k
      {
        if k in FirstSeen(rs) && k != rs[|rs| - 1].key {
          var i :| 0 <= i < |init| && init[i].key == k;
          assert rs[i].key == k;
        }
        if exists i | 0 <= i < |rs| :: rs[i].key == k {
          var i :| 0 <= i < |rs| && rs[i].key == k;
          if i < |init| {
            assert init[i].key == k;
          }
        }
      }
    }
  }

  /** Grouping is the reference grouping: one group per distinct key, in
      first-seen order, each holding exactly that key's paths in input order. */
  lemma {:induction false} BuildGroupsByFirstSeenKey(rs: seq<Record>)
    ensures Keys(Build(rs)) == FirstSeen(rs)
    ensures forall i | 0 <= i < |Build(rs)| :: Build(rs)[i].paths == Select(rs, Build(rs)[i].key)
    ensures DistinctKeys(Build(rs))
    decreases |rs|
  {
    if |rs| > 0 {
      var init := rs[..|rs| - 1];
      var r := rs[|rs| - 1];
      BuildGroupsByFirstSeenKey(init);
      FirstSeenFacts(init);
      var gs := Build(init);
      InsertInPlace(gs, r);
      if r.key !in Keys(gs) {
        assert Select(init, r.key) == [];
        assert Keys(Build(rs)) == Keys(gs) + [r.key];
      }
    }
  }

  /** A key's group under `Lookup` in a list with distinct keys. */
  lemma LookupAt(gs: seq<Group>, i: nat)
    requires DistinctKeys(gs) && i < |gs|
    ensures Lookup(gs, gs[i].key) == gs[i].paths
  {
    if i > 0 {
      LookupAt(gs[1..], i - 1);
    }
  }

  /** A key missing from the list has no paths. */
  lemma LookupMissing(gs: seq<Group>, k: string)
    requires k !in Keys(gs)
    ensures Lookup(gs, k) == []
  {
    if |gs| > 0 {
      assert Keys(gs) == [gs[0].key] + Keys(gs[1..]);
      LookupMissing(gs[1..], k);
    }
  }

  /** Grouping is complete and disjoint: looking up any key gives exactly the
      paths of the records with that key, in input order; the path counts add
      up to the number of records. */
  lemma {:induction false} GroupingCompleteAndDisjoint(rs: seq<Record>)
    ensures forall k :: Lookup(Build(rs), k) == Select(rs, k)
    ensures TotalPaths(Build(rs)) == |rs|
    decreases |rs|
  {
    BuildGroupsByFirstSeenKey(rs);
    FirstSeenFacts(rs);
    var gs := Build(rs);
    forall k
      ensures Lookup(gs, k) == Select(rs, k)
    {
      if k in Keys(gs) {
        var i :| 0 <= i < |gs| && Keys(gs)[i] == k;
        LookupAt(gs, i);
      } else {
        LookupMissing(gs, k);
      }
    }
    if |rs| > 0 {
      GroupingCompleteAndDisjoint(rs[..|rs| - 1]);
    }
  }

  /** Some group has at least `t` paths exactly when some key has at least
      `t` records. */
  lemma GroupSizesAreKeyCounts(rs: seq<Record>, t: int)
    requires t >= 1
    ensures (exists g | g in Build(rs) :: |g.paths| >= t) <==> (exists k :: |Select(rs, k)| >= t)
  {
    var gs := Build(rs);
    BuildGroupsByFirstSeenKey(rs);
    FirstSeenFacts(rs);
    if exists g | g in gs :: |g.paths| >= t {
      var g :| g in gs && |g.paths| >= t;
      var i :| 0 <= i < |gs| && gs[i] == g;
      assert |Select(rs, gs[i].key)| >= t;
    }
    if exists k :: |Select(rs, k)| >= t {
      var k :| |Select(rs, k)| >= t;
      assert k in FirstSeen(rs);
      var i :| 0 <= i < |gs| && Keys(gs)[i] == k;
      assert gs[i] in gs;
    }
  }

  /** One more line extends the grouping by that line's record, if any. */
  lemma BuildStep(lines: seq<string>, i: nat)
    requires i < |lines|
    ensures ParseLine(lines[i]).None? ==> Build(Records(lines[..i + 1])) == Build(Records(lines[..i]))
    ensures ParseLine(lines[i]).Some? ==>
      Build(Records(lines[..i + 1])) == Insert(Build(Records(lines[..i])), ParseLine(lines[i]).value)
  {
    var prefix := lines[..i + 1];
    assert prefix[..i] == lines[..i] && prefix[i] == lines[i];
    match ParseLine(lines[i]) {
      case None =>
        assert Records(prefix) == Records(lines[..i]);
      case Some(r) =>
        var rs := Records(lines[..i]) + [r];
        assert Records(prefix) == rs;
        assert rs[..|rs| - 1] == Records(lines[..i]) && rs[|rs| - 1] == r;
    }
  }

  /** `parse_annexed_files`: the loop over the lines, grouping as it goes. */
  method ParseAnnexedFiles(lines: seq<string>) returns (groups: seq<Group>)
    ensures groups == Build(Records(lines))
    ensures Keys(groups) == FirstSeen(Records(lines))
    ensures DistinctKeys(groups)
    ensures forall k :: Lookup(groups, k) == Select(Records(lines), k)
    ensures TotalPaths(groups) == |KeptLines(lines)|
  {
    groups := [];
    var i := 0;
    while i < |lines|
      invariant i <= |lines|
      invariant groups == Build(Records(lines[..i]))
    {
      BuildStep(lines, i);
      var parsed := ParseLine(lines[i]);
      if parsed.Some? {
        groups := Insert(groups, parsed.value);
      }
      i := i + 1;
    }
    assert lines[..i] == lines;
    BuildGroupsByFirstSeenKey(Records(lines));
    GroupingCompleteAndDisjoint(Records(lines));
    RecordsRejoinToKeptLines(lines);
  }
}

=== FILE: inventory.dfy ===
/** Parsing of the inventory listing: one `<key> <path>` line per annexed
    file, as `parse_annexed_files` reads it before grouping. */
module Inventory {
  import opened Text

  /** One annexed file: its content key and its path in the work tree. */
  datatype Record = Record(key: string, path: string)

  /** A line the parser keeps: not whitespace-only and holding a space. */
  predicate IsKept(line: string) {
    !IsBlank(line) && ' ' in line
  }

  /** One line: blank lines and lines without a space give nothing; any other
      line splits at its first space into key and path (`line.split(" ", 1)`). */
  function ParseLine(line: string): (r: Option<Record>)
    ensures r.Some? <==> IsKept(line)
    ensures r.Some? ==> ' ' !in r.value.key
    ensures r.Some? ==> r.value.key + " " + r.value.path == line
  {
    if IsBlank(line) then None
    else match FindFrom(line, " ", 0)
      case None =>
        assert ' ' !in line by {
          forall j | 0 <= j < |line|
            ensures line[j] != ' '
          {
            OccursAtChar(line, ' ', j);
          }
        }
        None
      case Some(i) =>
        OccursAtChar(line, ' ', i);
        assert ' ' !in line[..i] by {
          forall j | 0 <= j < i
            ensures line[..i][j] != ' '
          {
            OccursAtChar(line, ' ', j);
          }
        }
        assert line == line[..i] + " " + line[i + 1..];
        Some(Record(line[..i], line[i + 1..]))
  }

  /** The records of all kept lines, in input order. */
  function Records(lines: seq<string>): (rs: seq<Record>)
    ensures |rs| <= |lines|
    ensures forall i | 0 <= i < |rs| :: ' ' !in rs[i].key
    decreases |lines|
  {
    if |lines| == 0 then []
    else
      var init := Records(lines[..|lines| - 1]);
      match ParseLine(lines[|lines| - 1])
      case None => init
      case Some(r) => init + [r]
  }

  /** The kept lines themselves, in input order. */
  function KeptLines(lines: seq<string>): seq<string>
    decreases |lines|
  {
    if |lines| == 0 then []
    else
      var init := KeptLines(lines[..|lines| - 1]);
      if IsKept(lines[|lines| - 1]) then init + [lines[|lines| - 1]] else init
  }

  /** `key + " " + path` for every record. */
  function Rejoin(rs: seq<Record>): seq<string>
  {
    seq(|rs|, i requires 0 <= i < |rs| => rs[i].key + " " + rs[i].path)
  }

  /** Parsing loses nothing and invents nothing: the records rejoined are
      exactly the kept lines, one record per kept line, in order. */
  lemma {:induction false} RecordsRejoinToKeptLines(lines: seq<string>)
    ensures Rejoin(Records(lines)) == KeptLines(lines)
    ensures |Records(lines)| == |KeptLines(lines)|
    decreases |lines|
  {
    if |lines| > 0 {
      var init := lines[..|lines| - 1];
      RecordsRejoinToKeptLines(init);
      match ParseLine(lines[|lines| - 1])
      case None =>
      case Some(r) =>
        assert Rejoin(Records(lines)) == Rejoin(Records(init)) + [r.key + " " + r.path];
    }
  }
}

=== FILE: keydecoder.dfy ===
/** `format_size`: the byte size embedded in a key such as
    `MD5E-s2048--<hash>.png`, and the unit it is shown in. */
module KeyDecoder {
  import opened Text

  /** The units `format_size` steps through, dividing by 1024 each step. */
  datatype Unit = B | KB | MB | GB | TB

  /** How many divisions by 1024 lead to the unit. */
  function Exponent(u: Unit): nat {
    match u
    case B => 0
    case KB => 1
    case MB => 2
    case GB => 3
    case TB => 4
  }

  function UnitAt(k: nat): (u: Unit)
    requires k <= 4
    ensures Exponent(u) == k
  {
    [B, KB, MB, GB, TB][k]
  }

  /** 1024 to the power `e`. */
  function Scale(e: nat): (r: nat)
    ensures r >= 1
  {
    if e == 0 then 1 else 1024 * Scale(e - 1)
  }

  /** What the size column shows: the byte count and the unit it is scaled to
      (the value printed is `bytes / 1024^Exponent(unit)`), or "unknown size". */
  datatype SizeLabel = UnknownSize | Sized(bytes: nat, unit: Unit)

  /** The number the label prints before its unit, before one-decimal rounding. */
  function Magnitude(l: SizeLabel): real
    requires l.Sized?
  {
    l.bytes as real / Scale(Exponent(l.unit)) as real
  }

  // ---- decimal integers ----

  predicate IsDigit(c: char) {
    '0' <= c <= '9'
  }

  /** A non-empty string of ASCII decimal digits. */
  predicate IsDecimal(s: string) {
    |s| > 0 && forall i | 0 <= i < |s| :: IsDigit(s[i])
  }

  function DigitsValue(s: string): nat
    requires forall i | 0 <= i < |s| :: IsDigit(s[i])
    decreases |s|
  {
    if |s| == 0 then 0
    else
      assert IsDigit(s[|s| - 1]);
      10 * DigitsValue(s[..|s| - 1]) + (s[|s| - 1] as int - '0' as int)
  }

  /** 10 to the power `e`. */
  function Power10(e: nat): (r: nat)
    ensures r >= 1
  {
    if e == 0 then 1 else 10 * Power10(e - 1)
  }

  /** A string of k digits is worth less than 10^k. */
  lemma {:induction false} DigitsValueBelow(s: string)
    requires forall i | 0 <= i < |s| :: IsDigit(s[i])
    ensures DigitsValue(s) < Power10(|s|)
    decreases |s|
  {
    if |s| > 0 {
      DigitsValueBelow(s[..|s| - 1]);
      assert IsDigit(s[|s| - 1]);
    }
  }

  /** `int(s)`, narrowed to digit strings: their value, or `None`. */
  function ParseNat(s: string): (r: Option<nat>)
    ensures r.Some? <==> IsDecimal(s)
    ensures r.Some? ==> r.value < Power10(|s|)
  {
    if IsDecimal(s) then
      DigitsValueBelow(s);
      Some(DigitsValue(s))
    else None
  }

  /** The shortest decimal spelling of `n`. */
  function DecimalString(n: nat): (s: string)
    ensures IsDecimal(s)
    decreases n
  {
    var last := ('0' as int + n % 10) as char;
    if n < 10 then [last] else DecimalString(n / 10) + [last]
  }

  /** Parsing inverts printing. */
  lemma {:induction false} ParseNatRoundTrip(n: nat)
    ensures ParseNat(DecimalString(n)) == Some(n)
    decreases n
  {
    var s := DecimalString(n);
    if n < 10 {
      assert DigitsValue(s) == 10 * DigitsValue([]) + n % 10;
    } else {
      ParseNatRoundTrip(n / 10);
      assert s[..|s| - 1] == DecimalString(n / 10);
      assert DigitsValue(s) == 10 * (n / 10) + n % 10;
    }
  }

  // ---- locating the size field ----

  /** The text `int()` is given: `key.split("-s")[1].split("--")[0]` when the
      key holds "-s"; `None` when it does not. */
  function SizeText(key: string): (r: Option<string>)
    ensures r.Some? <==> Contains(key, "-s")
  {
    if Contains(key, "-s") then Some(Split(Split(key, "-s")[1], "--")[0]) else None
  }

  // ---- the unit ladder ----

  /** The loop over B, KB, MB, GB from position `k` with the running quotient
      `size`; falling out of the loop gives TB. */
  function Ladder(k: nat, size: real): (u: Unit)
    requires k <= 4
    ensures k <= Exponent(u)
    ensures Exponent(u) > k ==> size >= Scale(Exponent(u) - k) as real
    ensures u != TB ==> size < (1024 * Scale(Exponent(u) - k)) as real
    decreases 4 - k
  {
    if k == 4 then TB
    else if size < 1024.0 then UnitAt(k)
    else
      var u := Ladder(k + 1, size / 1024.0);
      assert Scale(Exponent(u) - k) == 1024 * Scale(Exponent(u) - (k + 1));
      u
  }

  /** The unit for `n` bytes: the one whose scaled value is below 1024 and,
      for KB and above, at least 1. */
  function PickUnit(n: nat): (u: Unit)
    ensures u != B ==> Scale(Exponent(u)) <= n
    ensures u != TB ==> n < 1024 * Scale(Exponent(u))
  {
    Ladder(0, n as real)
  }

  /** Reference: the unit by fixed thresholds 2^10, 2^20, 2^30, 2^40. */
  function UnitByThreshold(n: nat): Unit {
    if n < 0x400 then B
    else if n < 0x10_0000 then KB
    else if n < 0x4000_0000 then MB
    else if n < 0x100_0000_0000 then GB
    else TB
  }

  lemma PickUnitMatchesThresholds(n: nat)
    ensures PickUnit(n) == UnitByThreshold(n)
  {
    assert Scale(1) == 0x400;
    assert Scale(2) == 0x10_0000;
    assert Scale(3) == 0x4000_0000;
    assert Scale(4) == 0x100_0000_0000;
  }

  /** The size in the unit `PickUnit` chooses is at least 1 unless the unit
      is B, and below 1024 unless it is TB. */
  lemma PickUnitMagnitude(n: nat)
    ensures PickUnit(n) != B ==> 1.0 <= Magnitude(Sized(n, PickUnit(n)))
    ensures PickUnit(n) != TB ==> Magnitude(Sized(n, PickUnit(n))) < 1024.0
  {
    var u := PickUnit(n);
    var d := Scale(Exponent(u)) as real;
    assert Magnitude(Sized(n, u)) == n as real / d;
    if u != B {
      assert d <= n as real;
    }
    if u != TB {
      assert n as real < 1024.0 * d;
    }
  }

  /** `format_size`, corrected to be total (see `FormatSizeAsWritten`): the
      size field's value with its unit, or "unknown size" when the key holds
      no "-s" or the text after it is not a decimal number. */
  function FormatSize(key: string): (r: SizeLabel)
    ensures r.Sized? <==> SizeText(key).Some? && IsDecimal(SizeText(key).value)
    ensures r.Sized? ==> ParseNat(SizeText(key).value) == Some(r.bytes)
    ensures r.Sized? && r.unit != B ==> 1.0 <= Magnitude(r)
    ensures r.Sized? && r.unit != TB ==> Magnitude(r) < 1024.0
  {
    match SizeText(key)
    case None => UnknownSize
    case Some(t) =>
      match ParseNat(t)
      case None => UnknownSize
      case Some(n) =>
        PickUnitMagnitude(n);
        Sized(n, PickUnit(n))
  }

  // ---- the source as written ----

  /** What `format_size` gives back: a label, or an escaping exception. */
  datatype Decoded = Shown(size: SizeLabel) | OverflowError

  /** The largest finite double, (2^53 - 1) * 2^971; 2^971 is 2 * 1024^97. */
  const MaxDouble: nat := 0x1F_FFFF_FFFF_FFFF * (2 * Scale(97))

  /** The least `n` for which Python's correctly rounded `n / 1024` is not a
      finite double: (2^54 - 1) * 2^980, that is (2^54 - 1) * 1024^98. */
  const OverflowBound: nat := 0x3F_FFFF_FFFF_FFFF * Scale(98)

  /** Powers of 1024 multiply by adding exponents. */
  lemma {:induction false} ScaleSplit(a: nat, b: nat)
    ensures Scale(a + b) == Scale(a) * Scale(b)
    decreases a
  {
    if a > 0 {
      ScaleSplit(a - 1, b);
    }
  }

  /** The bound is where the quotient reaches the midpoint between the
      largest double and 2^1024. That midpoint lies half a unit in the last
      place, 2^970 = 1024^97, above the largest double. Round-half-to-even
      sends it up to 2^1024, because the largest double's last significand
      bit is 1. Every quotient below the midpoint rounds to a finite
      double. */
  lemma OverflowBoundIsRoundingMidpoint()
    ensures OverflowBound == 1024 * (MaxDouble + Scale(97))
  {
    assert Scale(98) == 1024 * Scale(97);
  }

  /** 1024^32 = 2^320, by repeated squaring. */
  lemma ScaleThirtyTwo()
    ensures Scale(32) == 0x100000000000000000000000000000000000000000000000000000000000000000000000000000000
  {
    assert Scale(1) == 1024;
    ScaleSplit(1, 1);
    assert Scale(2) == 0x100000;
    ScaleSplit(2, 2);
    assert Scale(4) == 0x10000000000;
    ScaleSplit(4, 4);
    assert Scale(8) == 0x100000000000000000000;
    ScaleSplit(8, 8);
    assert Scale(16) == 0x10000000000000000000000000000000000000000;
    ScaleSplit(16, 16);
    assert Scale(32) == 0x100000000000000000000000000000000000000000000000000000000000000000000000000000000;
  }

  /** 1024^98 = 2^980. */
  lemma ScaleNinetyEight()
    ensures Scale(98) == 0x100000000000000000000000000000000000000000000000000000000000000000000000000000000000000000000000000000000000000000000000000000000000000000000000000000000000000000000000000000000000000000000000000000000000000000000000000000000000000000000000000000
  {
    ScaleThirtyTwo();
    ScaleSplit(32, 32);
    assert Scale(64) == 0x10000000000000000000000000000000000000000000000000000000000000000000000000000000000000000000000000000000000000000000000000000000000000000000000000000000000000000;
    ScaleSplit(64, 32);
    assert Scale(96) == 0x1000000000000000000000000000000000000000000000000000000000000000000000000000000000000000000000000000000000000000000000000000000000000000000000000000000000000000000000000000000000000000000000000000000000000000000000000000000000000000000000000;
    ScaleSplit(96, 2);
    assert Scale(2) == 0x10_0000;
  }

  /** The bound in hexadecimal: 0x3FFFFFFFFFFFFF followed by 245 zero digits,
      (2^54 - 1) * 16^245. */
  lemma OverflowBoundValue()
    ensures OverflowBound == 0x3FFFFFFFFFFFFF00000000000000000000000000000000000000000000000000000000000000000000000000000000000000000000000000000000000000000000000000000000000000000000000000000000000000000000000000000000000000000000000000000000000000000000000000000000000000000000000000000
  {
    ScaleNinetyEight();
  }

  /** `format_size` as written: the first pass of the loop divides the integer
      by 1024 with `/=`, which raises `OverflowError` when the quotient does not
      fit a double; the `except` clause catches only `ValueError` and
      `IndexError`, so that error escapes. Where it does not raise, it agrees
      with the corrected `FormatSize`. */
  function FormatSizeAsWritten(key: string): (r: Decoded)
    ensures r == OverflowError <==>
      FormatSize(key).Sized? && FormatSize(key).bytes >= OverflowBound
    ensures r != OverflowError ==> r == Shown(FormatSize(key))
  {
    match SizeText(key)
    case None => Shown(UnknownSize)
    case Some(t) =>
      match ParseNat(t)
      case None => Shown(UnknownSize)
      case Some(n) =>
        if n < 1024 then Shown(Sized(n, B))
        else if n >= OverflowBound then OverflowError
        else Shown(Sized(n, Ladder(1, n as real / 1024.0)))
  }

  // ---- decoding a well-formed key ----

  /** A two-character pattern occurs where its two characters stand. */
  lemma OccursAtPair(s: string, a: char, b: char, j: nat)
    ensures OccursAt(s, [a, b], j) <==> j + 2 <= |s| && s[j] == a && s[j + 1] == b
  {
    if j + 2 <= |s| {
      assert s[j..j + 2] == [s[j], s[j + 1]];
    }
  }

  /** The first piece of a split, when its end is known. */
  lemma SplitFirstPiece(s: string, sep: string, i: nat)
    requires |sep| > 0 && OccursAt(s, sep, i)
    requires forall j: nat | j < i :: !OccursAt(s, sep, j)
    ensures Split(s, sep)[0] == s[..i]
    ensures |Split(s, sep)| >= 2 && Split(s, sep)[1..] == Split(s[i + |sep|..], sep)
  {
    assert FindFrom(s, sep, 0) == Some(i);
  }

  /** A split's first piece extends any prefix free of the separator. */
  lemma SplitFirstPieceExtends(s: string, sep: string, i: nat)
    requires |sep| > 0 && i <= |s|
    requires forall j: nat | j < i :: !OccursAt(s, sep, j)
    ensures i <= |Split(s, sep)[0]| && Split(s, sep)[0][..i] == s[..i]
  {
    match FindFrom(s, sep, 0)
    case None =>
    case Some(k) =>
      SplitFirstPiece(s, sep, k);
  }

  lemma NoDashNoMarker(s: string)
    requires '-' !in s
    ensures !Contains(s, "-s") && !Contains(s, "--")
  {
    forall j: nat | j <= |s|
      ensures !OccursAt(s, "-s", j) && !OccursAt(s, "--", j)
    {
      OccursAtPair(s, '-', 's', j);
      OccursAtPair(s, '-', '-', j);
    }
  }

  /** Behind a backend free of "-s", the size segment is the text after the
      marker up to the next "-s". */
  lemma SegmentAfterMarker(backend: string, tail: string)
    requires !Contains(backend, "-s")
    ensures |Split(backend + "-s" + tail, "-s")| >= 2
    ensures Split(backend + "-s" + tail, "-s")[1] == Split(tail, "-s")[0]
  {
    var key := backend + "-s" + tail;
    var b := |backend|;
    OccursAtPair(key, '-', 's', b);
    forall j: nat | j < b
      ensures !OccursAt(key, "-s", j)
    {
      OccursAtPair(key, '-', 's', j);
      OccursAtPair(backend, '-', 's', j);
      if j + 1 < b {
        assert key[j] == backend[j] && key[j + 1] == backend[j + 1];
      }
    }
    SplitFirstPiece(key, "-s", b);
    assert key[b + 2..] == tail;
  }

  /** The segment `<digits>--<rest>` reaches past its "--" unless `rest`
      begins with 's'. */
  lemma SegmentReachesCut(d: string, rest: string)
    requires IsDecimal(d)
    requires |rest| == 0 || rest[0] != 's'
    ensures |d| + 2 <= |Split(d + "--" + rest, "-s")[0]|
    ensures Split(d + "--" + rest, "-s")[0][..|d| + 2] == d + "--"
  {
    var x := d + "--" + rest;
    forall j: nat | j < |d| + 2
      ensures !OccursAt(x, "-s", j)
    {
      OccursAtPair(x, '-', 's', j);
      if j < |d| {
        assert x[j] == d[j];
      }
    }
    SplitFirstPieceExtends(x, "-s", |d| + 2);
    assert x[..|d| + 2] == d + "--";
  }

  /** Cutting `<digits>--...` at its first "--" leaves the digits. */
  lemma CutAtDoubleDash(p: string, d: string)
    requires IsDecimal(d)
    requires |d| + 2 <= |p| && p[..|d| + 2] == d + "--"
    ensures Split(p, "--")[0] == d
  {
    OccursAtPair(p, '-', '-', |d|);
    forall j: nat | j < |d|
      ensures !OccursAt(p, "--", j)
    {
      OccursAtPair(p, '-', '-', j);
      assert p[j] == p[..|d| + 2][j] == d[j];
    }
    SplitFirstPiece(p, "--", |d|);
    assert p[..|d|] == p[..|d| + 2][..|d|];
  }

  /** For a key `<backend>-s<n>--<rest>` whose backend holds no "-s" and whose
      rest does not begin with 's', the text given to `int()` is the decimal
      spelling of `n`. */
  lemma EmbeddedSizeText(backend: string, n: nat, rest: string)
    requires !Contains(backend, "-s")
    requires |rest| == 0 || rest[0] != 's'
    ensures SizeText(backend + "-s" + DecimalString(n) + "--" + rest) == Some(DecimalString(n))
  {
    var d := DecimalString(n);
    var key := backend + "-s" + d + "--" + rest;
    assert key == backend + "-s" + (d + "--" + rest);
    SegmentAfterMarker(backend, d + "--" + rest);
    SegmentReachesCut(d, rest);
    CutAtDoubleDash(Split(d + "--" + rest, "-s")[0], d);
    assert Split(Split(key, "-s")[1], "--")[0] == d;
  }

  /** Decoding a key that embeds `n` bytes recovers `n` and picks the unit by
      the 2^10 ladder. */
  lemma EmbeddedSizeDecodes(backend: string, n: nat, rest: string)
    requires !Contains(backend, "-s")
    requires |rest| == 0 || rest[0] != 's'
    ensures FormatSize(backend + "-s" + DecimalString(n) + "--" + rest) == Sized(n, UnitByThreshold(n))
  {
    EmbeddedSizeText(backend, n, rest);
    ParseNatRoundTrip(n);
    PickUnitMatchesThresholds(n);
  }

  /** Every key embedding a size at or above the bound makes the source
      raise, where the corrected decoder shows the size in TB. */
  lemma OverflowAtBound(backend: string, n: nat, rest: string)
    requires !Contains(backend, "-s")
    requires |rest| == 0 || rest[0] != 's'
    requires n >= OverflowBound
    ensures FormatSizeAsWritten(backend + "-s" + DecimalString(n) + "--" + rest) == OverflowError
    ensures FormatSize(backend + "-s" + DecimalString(n) + "--" + rest) == Sized(n, TB)
  {
    EmbeddedSizeDecodes(backend, n, rest);
  }

  /** In `<digits>--s<rest>` the first "-s" is the one after the first dash. */
  lemma SegmentStopsAtSecondDash(d: string, rest: string)
    requires IsDecimal(d)
    ensures Split(d + "--s" + rest, "-s")[0] == d + "-"
  {
    var x := d + "--s" + rest;
    OccursAtPair(x, '-', 's', |d| + 1);
    forall j: nat | j < |d| + 1
      ensures !OccursAt(x, "-s", j)
    {
      OccursAtPair(x, '-', 's', j);
      if j < |d| {
        assert x[j] == d[j];
      }
    }
    SplitFirstPiece(x, "-s", |d| + 1);
    assert x[..|d| + 1] == d + "-";
  }

  /** A key whose size field is 10^320 makes the source raise, where the
      corrected decoder shows the size in TB. */
  lemma ExampleOverflow(n: nat)
    requires n == 100000000000000000000000000000000000000000000000000000000000000000000000000000000000000000000000000000000000000000000000000000000000000000000000000000000000000000000000000000000000000000000000000000000000000000000000000000000000000000000000000000000000000000000000000000000000000000000000000000000000000000000000000000000
    ensures FormatSizeAsWritten("MD5E" + "-s" + DecimalString(n) + "--" + "x") == OverflowError
    ensures FormatSize("MD5E" + "-s" + DecimalString(n) + "--" + "x") == Sized(n, TB)
  {
    OverflowBoundValue();
    NoDashNoMarker("MD5E");
    OverflowAtBound("MD5E", n, "x");
  }

  /** A name part that begins with 's' turns "--s" into "-" plus a marker, so
      the size text keeps a trailing '-' and the size is unknown. */
  lemma NameStartingWithSIsUnknown(backend: string, n: nat, rest: string)
    requires !Contains(backend, "-s")
    ensures FormatSize(backend + "-s" + DecimalString(n) + "--s" + rest) == UnknownSize
  {
    var d := DecimalString(n);
    var x := d + "--s" + rest;
    assert backend + "-s" + d + "--s" + rest == backend + "-s" + x;
    SegmentAfterMarker(backend, x);
    SegmentStopsAtSecondDash(d, rest);
    var p := d + "-";
    NoDoubleDashInDigitsDash(d);
    assert Split(p, "--") == [p];
    assert !IsDigit(p[|p| - 1]);
  }

  lemma NoDoubleDashInDigitsDash(d: string)
    requires IsDecimal(d)
    ensures !Contains(d + "-", "--")
  {
    var p := d + "-";
    forall j: nat | j <= |p|
      ensures !OccursAt(p, "--", j)
    {
      OccursAtPair(p, '-', '-', j);
      if j < |d| {
        assert p[j] == d[j];
      }
    }
  }

  // ---- examples ----

  lemma SpellKilobyteKey(key: string)
    requires key == "MD5E-s2048--abcdef.png"
    ensures key == "MD5E" + "-s" + DecimalString(2048) + "--" + "abcdef.png"
  {
    assert DecimalString(2048) == "2048" by {
      assert DecimalString(2) == "2";
      assert DecimalString(20) == "20";
      assert DecimalString(204) == "204";
    }
  }

  /** An MD5E key of 2048 bytes shows as 2.0 KB. */
  lemma ExampleKilobytes(key: string)
    requires key == "MD5E-s2048--abcdef.png"
    ensures FormatSize(key) == Sized(2048, KB)
    ensures Magnitude(FormatSize(key)) == 2.0
  {
    SpellKilobyteKey(key);
    NoDashNoMarker("MD5E");
    EmbeddedSizeDecodes("MD5E", 2048, "abcdef.png");
    assert UnitByThreshold(2048) == KB;
    assert Scale(Exponent(KB)) == 1024;
    assert Magnitude(Sized(2048, KB)) == 2048.0 / 1024.0;
  }

  /** A key without "-s" has no size field, so its size is unknown. */
  lemma NoSizeFieldIsUnknown(key: string)
    requires !Contains(key, "-s")
    ensures FormatSize(key) == UnknownSize
  {
    assert SizeText(key).None?;
  }

  /** The key `WORM-v1--xyz` holds no "-s", so its size is unknown. */
  lemma ExampleNoSizeField(key: string)
    requires key == "WORM-v1--xyz"
    ensures FormatSize(key) == UnknownSize
  {
    assert !Contains(key, "-s") by {
      forall j: nat | j <= |key|
        ensures !OccursAt(key, "-s", j)
      {
        OccursAtPair(key, '-', 's', j);
      }
    }
    NoSizeFieldIsUnknown(key);
  }
}

=== FILE: ordering.dfy ===
/** The order of the detail listing: `sorted(filtered_duplicates.items(),
    key=lambda x: len(x[1]), reverse=True)`. */
module Ordering {
  import opened Grouping

  /** Path counts never grow along the sequence. */
  predicate NonIncreasing(gs: seq<Group>) {
    forall i, j | 0 <= i < j < |gs| :: |gs[i].paths| >= |gs[j].paths|
  }

  /** The groups with exactly `n` paths, in their order. */
  function WithSize(gs: seq<Group>, n: nat): seq<Group>
  {
    if |gs| == 0 then []
    else (if |gs[0].paths| == n then [gs[0]] else []) + WithSize(gs[1..], n)
  }

  /** Places `g` after every group with more paths and before the rest. */
  function InsertBySize(g: Group, s: seq<Group>): (out: seq<Group>)
    ensures |out| == |s| + 1
    ensures multiset(out) == multiset(s) + multiset{g}
    ensures out[0] == g || (|s| > 0 && out[0] == s[0])
  {
    if |s| == 0 then [g]
    else if |s[0].paths| <= |g.paths| then [g] + s
    else
      assert s == [s[0]] + s[1..];
      [s[0]] + InsertBySize(g, s[1..])
  }

  /** Inserting into an ordered sequence keeps it ordered. */
  lemma {:induction false} InsertBySizeOrdered(g: Group, s: seq<Group>)
    requires NonIncreasing(s)
    ensures NonIncreasing(InsertBySize(g, s))
  {
    if |s| > 0 && |s[0].paths| > |g.paths| {
      var tail := InsertBySize(g, s[1..]);
      assert NonIncreasing(s[1..]);
      InsertBySizeOrdered(g, s[1..]);
      assert |tail[0].paths| <= |s[0].paths|;
      var out := [s[0]] + tail;
      forall i, j | 0 <= i < j < |out|
        ensures |out[i].paths| >= |out[j].paths|
      {
        if i > 0 {
          assert out[i] == tail[i - 1] && out[j] == tail[j - 1];
        } else if j > 1 {
          assert out[j] == tail[j - 1];
        }
      }
    }
  }

  /** Inserting `g` puts it first among the groups of its size. */
  lemma {:induction false} InsertBySizeTies(g: Group, s: seq<Group>, n: nat)
    ensures WithSize(InsertBySize(g, s), n) == (if |g.paths| == n then [g] else []) + WithSize(s, n)
  {
    var out := InsertBySize(g, s);
    var w := if |g.paths| == n then [g] else [];
    if |s| == 0 || |s[0].paths| <= |g.paths| {
      assert out == [g] + s && out[1..] == s;
      assert WithSize(out, n) == w + WithSize(s, n);
    } else {
      var tail := InsertBySize(g, s[1..]);
      InsertBySizeTies(g, s[1..], n);
      assert out == [s[0]] + tail && out[1..] == tail;
      var h := if |s[0].paths| == n then [s[0]] else [];
      assert WithSize(out, n) == h + (w + WithSize(s[1..], n));
      assert WithSize(s, n) == h + WithSize(s[1..], n);
      if |s[0].paths| == n {
        assert w == [];
        assert w + WithSize(s[1..], n) == WithSize(s[1..], n);
      } else {
        assert h == [];
        assert h + WithSize(s[1..], n) == WithSize(s[1..], n);
      }
    }
  }

  /** `sorted(..., key=len, reverse=True)`: the groups rearranged so that path
      counts never grow. */
  function SortBySize(gs: seq<Group>): (out: seq<Group>)
    ensures |out| == |gs|
    ensures multiset(out) == multiset(gs)
    ensures NonIncreasing(out)
  {
    if |gs| == 0 then []
    else
      assert gs == [gs[0]] + gs[1..];
      InsertBySizeOrdered(gs[0], SortBySize(gs[1..]));
      InsertBySize(gs[0], SortBySize(gs[1..]))
  }

  /** Python's sort is stable, also in reverse: groups of equal size keep
      their first-seen order. */
  lemma {:induction false} SortBySizeIsStable(gs: seq<Group>, n: nat)
    ensures WithSize(SortBySize(gs), n) == WithSize(gs, n)
  {
    if |gs| > 0 {
      SortBySizeIsStable(gs[1..], n);
      InsertBySizeTies(gs[0], SortBySize(gs[1..]), n);
    }
  }
}

=== FILE: pathorder.dfy ===
/** Python's ordering of `str` values and `sorted(files)` on the paths of a
    duplicate set. */
module PathOrder {

  /** Python's `a < b` on strings: the first differing code point decides,
      and a proper prefix comes first. */
  predicate Below(a: string, b: string)
    decreases |a|
  {
    |b| > 0 && (|a| == 0 || a[0] < b[0] || (a[0] == b[0] && Below(a[1..], b[1..])))
  }

  /** Reference: `a` and `b` agree on their first `k` characters, and at
      `k` either `a` has ended while `b` goes on, or `a`'s character is the
      smaller code point. */
  predicate DiffersBelowAt(a: string, b: string, k: nat) {
    && k <= |a| && k < |b| && a[..k] == b[..k]
    && (k == |a| || a[k] < b[k])
  }

  /** `Below` is the order of the first difference. */
  lemma {:induction false} BelowIsFirstDifference(a: string, b: string)
    ensures Below(a, b) <==> exists k: nat :: DiffersBelowAt(a, b, k)
    decreases |a|
  {
    if |a| > 0 && |b| > 0 {
      BelowIsFirstDifference(a[1..], b[1..]);
      if Below(a, b) && a[0] == b[0] && !(a[0] < b[0]) {
        var k: nat :| DiffersBelowAt(a[1..], b[1..], k);
        assert a[..k + 1] == [a[0]] + a[1..][..k];
        assert b[..k + 1] == [b[0]] + b[1..][..k];
        assert DiffersBelowAt(a, b, k + 1);
      } else if Below(a, b) {
        assert DiffersBelowAt(a, b, 0);
      }
      if exists k: nat :: DiffersBelowAt(a, b, k) {
        var k: nat :| DiffersBelowAt(a, b, k);
        if k > 0 {
          assert a[0] == a[..k][0] == b[..k][0] == b[0];
          assert a[1..][..k - 1] == a[..k][1..] && b[1..][..k - 1] == b[..k][1..];
          assert DiffersBelowAt(a[1..], b[1..], k - 1);
        }
      }
    } else if |b| > 0 {
      assert DiffersBelowAt(a, b, 0);
    }
  }

  predicate AtMost(a: string, b: string) {
    a == b || Below(a, b)
  }

  lemma {:induction false} BelowIrreflexive(a: string)
    ensures !Below(a, a)
    decreases |a|
  {
    if |a| > 0 {
      BelowIrreflexive(a[1..]);
    }
  }

  lemma {:induction false} BelowAsymmetric(a: string, b: string)
    requires Below(a, b)
    ensures !Below(b, a)
    decreases |a|
  {
    if |a| > 0 && a[0] == b[0] {
      BelowAsymmetric(a[1..], b[1..]);
    }
  }

  lemma {:induction false} BelowTransitive(a: string, b: string, c: string)
    requires Below(a, b) && Below(b, c)
    ensures Below(a, c)
    decreases |a|
  {
    if |a| > 0 && a[0] == b[0] && b[0] == c[0] {
      BelowTransitive(a[1..], b[1..], c[1..]);
    }
  }

  lemma {:induction false} BelowTotal(a: string, b: string)
    ensures a == b || Below(a, b) || Below(b, a)
    decreases |a|
  {
    if |a| > 0 && |b| > 0 && a[0] == b[0] {
      BelowTotal(a[1..], b[1..]);
      if a[1..] == b[1..] {
        assert a == [a[0]] + a[1..] && b == [b[0]] + b[1..];
      }
    }
  }

  lemma AtMostTransitive(a: string, b: string, c: string)
    requires AtMost(a, b) && AtMost(b, c)
    ensures AtMost(a, c)
  {
    if a != b && b != c {
      BelowTransitive(a, b, c);
    }
  }

  /** Non-decreasing in Python's string order. */
  predicate Sorted(s: seq<string>) {
    forall i, j | 0 <= i < j < |s| :: AtMost(s[i], s[j])
  }

  /** Places `p` before the first element it does not follow. */
  function InsertPath(p: string, s: seq<string>): (out: seq<string>)
    ensures |out| == |s| + 1
    ensures multiset(out) == multiset(s) + multiset{p}
    ensures out[0] == p || (|s| > 0 && out[0] == s[0])
  {
    if |s| == 0 || AtMost(p, s[0]) then [p] + s
    else
      assert s == [s[0]] + s[1..];
      [s[0]] + InsertPath(p, s[1..])
  }

  /** Inserting into a sorted sequence keeps it sorted. */
  lemma {:induction false} InsertPathSorted(p: string, s: seq<string>)
    requires Sorted(s)
    ensures Sorted(InsertPath(p, s))
  {
    if |s| > 0 && AtMost(p, s[0]) {
      forall j | 0 < j < |s|
        ensures AtMost(p, s[j])
      {
        AtMostTransitive(p, s[0], s[j]);
      }
      assert InsertPath(p, s) == [p] + s;
    } else if |s| > 0 {
      var tail := InsertPath(p, s[1..]);
      InsertPathSorted(p, s[1..]);
      BelowTotal(p, s[0]);
      assert AtMost(s[0], tail[0]);
      forall j | 0 < j < |tail|
        ensures AtMost(s[0], tail[j])
      {
        AtMostTransitive(s[0], tail[0], tail[j]);
      }
      var out := [s[0]] + tail;
      assert InsertPath(p, s) == out;
      forall i, j | 0 <= i < j < |out|
        ensures AtMost(out[i], out[j])
      {
        if i > 0 {
          assert out[i] == tail[i - 1] && out[j] == tail[j - 1];
        } else {
          assert out[j] == tail[j - 1];
        }
      }
    }
  }

  /** `sorted(files)`: the paths in Python's string order, none lost or added. */
  function SortPaths(ps: seq<string>): (out: seq<string>)
    ensures multiset(out) == multiset(ps)
    ensures Sorted(out)
  {
    if |ps| == 0 then []
    else
      assert ps == [ps[0]] + ps[1..];
      InsertPathSorted(ps[0], SortPaths(ps[1..]));
      InsertPath(ps[0], SortPaths(ps[1..]))
  }

  /** Two sorted arrangements of the same paths start alike. */
  lemma SortedSameHead(a: seq<string>, b: seq<string>)
    requires Sorted(a) && Sorted(b) && multiset(a) == multiset(b) && |a| > 0
    ensures |b| > 0 && a[0] == b[0]
  {
    assert a[0] in multiset(b);
    var i :| 0 <= i < |b| && b[i] == a[0];
    assert b[0] in multiset(a);
    var j :| 0 <= j < |a| && a[j] == b[0];
    assert AtMost(b[0], a[0]) && AtMost(a[0], b[0]);
    if a[0] != b[0] {
      BelowAsymmetric(a[0], b[0]);
    }
  }

  /** Dropping the first element of a sorted sequence keeps it sorted. */
  lemma SortedTail(a: seq<string>)
    requires Sorted(a) && |a| > 0
    ensures Sorted(a[1..]) && multiset(a[1..]) == multiset(a) - multiset{a[0]}
  {
    assert a == [a[0]] + a[1..];
  }

  /** The sorted order is unique: two sorted arrangements of the same paths
      are equal, so `SortPaths` is the one `sorted` returns. */
  lemma {:induction false} SortedUnique(a: seq<string>, b: seq<string>)
    requires Sorted(a) && Sorted(b) && multiset(a) == multiset(b)
    ensures a == b
    decreases |a|
  {
    if |a| > 0 {
      SortedSameHead(a, b);
      SortedTail(a);
      SortedTail(b);
      SortedUnique(a[1..], b[1..]);
      assert a == [a[0]] + a[1..] && b == [b[0]] + b[1..];
    } else {
      assert |b| == |multiset(b)| == 0;
    }
  }
}

=== FILE: report.dfy ===
/** What `main` computes from the grouped inventory: the summary counts, or
    the numbered listing of duplicate sets, largest first. */
module Report {
  import opened Inventory
  import opened Grouping
  import opened Duplicates
  import opened KeyDecoder
  import opened PathOrder
  import opened Ordering

  // ---- summary mode ----

  /** The four numbers `--summary` prints. */
  datatype Summary = Summary(totalFiles: nat, duplicateFiles: nat, duplicateGroups: nat, wastedCopies: int)

  /** The counts: every path of the grouping, every path of the reported
      sets, the number of sets, and the wasted copies, which are every path of
      a set but one. */
  function Summarize(all: seq<Group>, filtered: seq<Group>): (s: Summary)
    ensures s.totalFiles == TotalPaths(all) && s.duplicateFiles == TotalPaths(filtered)
    ensures s.duplicateGroups == |filtered|
    ensures s.wastedCopies == Excess(filtered)
  {
    ExcessIsPathsMinusGroups(filtered);
    var dupFiles := TotalPaths(filtered);
    Summary(TotalPaths(all), dupFiles, |filtered|, dupFiles - |filtered|)
  }

  /** The redundant copies: every path of a group but one. */
  function Excess(gs: seq<Group>): int
  {
    if |gs| == 0 then 0 else |gs[0].paths| - 1 + Excess(gs[1..])
  }

  lemma {:induction false} ExcessIsPathsMinusGroups(gs: seq<Group>)
    ensures Excess(gs) == TotalPaths(gs) - |gs|
  {
    if |gs| > 0 {
      ExcessIsPathsMinusGroups(gs[1..]);
    }
  }

  lemma {:induction false} ExcessOfDuplicates(gs: seq<Group>)
    requires forall g | g in gs :: |g.paths| >= 2
    ensures Excess(gs) >= |gs|
  {
    if |gs| > 0 {
      assert gs[0] in gs;
      ExcessOfDuplicates(gs[1..]);
    }
  }

  /** The summary's facts: duplicates are among all files, the wasted-copies
      figure is the sum of (len - 1) over the reported sets and at least the
      number of sets, and with nothing reported both duplicate counts are 0. */
  lemma SummaryCounts(all: seq<Group>, m: int)
    ensures var s := Summarize(all, Reported(all, m));
      && s.duplicateFiles <= s.totalFiles
      && s.wastedCopies == Excess(Reported(all, m))
      && s.duplicateGroups <= s.wastedCopies
      && s.duplicateGroups <= s.duplicateFiles
      && (s.duplicateGroups == 0 <==> s.duplicateFiles == 0)
      && (s.duplicateGroups == 0 ==> s.wastedCopies == 0)
  {
    var f := Reported(all, m);
    SubsequenceTotalPaths(f, all);
    ExcessIsPathsMinusGroups(f);
    ExcessOfDuplicates(f);
    if |f| > 0 {
      assert f[0] in f;
      assert TotalPaths(f) >= |f[0].paths|;
    }
  }

  // ---- detail mode: path elision ----

  /** Widest path shown in full without `--verbose`. */
  const Width: nat := 70

  /** Characters kept after the "..." of an elided path. */
  const Kept: nat := 67

  /** `"..." + filepath[-67:]` for paths longer than 70 characters. */
  function Elide(p: string): (r: string)
    ensures |r| <= Width
    ensures r == p <==> |p| <= Width
    ensures |p| > Width ==> |r| == Width && r[..3] == "..." && r[3..] == p[|p| - Kept..]
  {
    if |p| > Width then "..." + p[|p| - Kept..] else p
  }

  /** How a path is printed: in full with `--verbose`, elided without. */
  function Display(p: string, verbose: bool): (r: string)
    ensures verbose || |p| <= Width ==> r == p
    ensures !verbose ==> |r| <= Width
    ensures !verbose && |p| > Width ==> r == "..." + p[|p| - Kept..]
  {
    if verbose then p else Elide(p)
  }

  // ---- detail mode: the listing ----

  /** One numbered duplicate set as `main` prints it. */
  datatype Entry = Entry(index: nat, key: string, size: SizeLabel, count: nat, shown: seq<string>)

  /** The entry for group `g`: its key, its decoded size, its copy count and
      its paths, sorted and displayed. */
  function MakeEntry(index: nat, g: Group, verbose: bool): (e: Entry)
    ensures e.index == index && e.key == g.key
    ensures e.size == FormatSize(g.key)
    ensures Shows(e, g, verbose)
  {
    var sorted := SortPaths(g.paths);
    assert |sorted| == |multiset(sorted)| == |multiset(g.paths)| == |g.paths|;
    var e := Entry(index, g.key, FormatSize(g.key), |g.paths|,
                   seq(|sorted|, j requires 0 <= j < |sorted| => Display(sorted[j], verbose)));
    assert verbose ==> e.shown == sorted;
    e
  }

  /** `enumerate(ordered, first)`, each group made into an entry. */
  function Number(ordered: seq<Group>, first: nat, verbose: bool): (es: seq<Entry>)
    ensures |es| == |ordered|
    ensures forall i | 0 <= i < |es| :: es[i] == MakeEntry(first + i, ordered[i], verbose)
  {
    if |ordered| == 0 then []
    else [MakeEntry(first, ordered[0], verbose)] + Number(ordered[1..], first + 1, verbose)
  }

  /** The listing of the reported groups, largest set first, numbered from 1. */
  function Listing(filtered: seq<Group>, verbose: bool): (es: seq<Entry>)
    ensures |es| == |filtered|
    ensures forall i | 0 <= i < |es| :: es[i].index == i + 1
    ensures forall i, j | 0 <= i < j < |es| :: es[i].count >= es[j].count
  {
    var ordered := SortBySize(filtered);
    var es := Number(ordered, 1, verbose);
    assert forall i | 0 <= i < |es| :: es[i].count == |ordered[i].paths|;
    es
  }

  /** The keys of the entries listing `n` copies, in listing order. */
  function KeysWithCount(es: seq<Entry>, n: nat): seq<string>
  {
    if |es| == 0 then []
    else (if es[0].count == n then [es[0].key] else []) + KeysWithCount(es[1..], n)
  }

  lemma {:induction false} NumberKeepsTies(ordered: seq<Group>, first: nat, verbose: bool, n: nat)
    ensures KeysWithCount(Number(ordered, first, verbose), n) == Keys(WithSize(ordered, n))
  {
    if |ordered| > 0 {
      NumberKeepsTies(ordered[1..], first + 1, verbose, n);
      var es := Number(ordered, first, verbose);
      var e := MakeEntry(first, ordered[0], verbose);
      assert es == [e] + Number(ordered[1..], first + 1, verbose);
      assert es[1..] == Number(ordered[1..], first + 1, verbose);
      assert e.count == |ordered[0].paths| && e.key == ordered[0].key;
      var w := if |ordered[0].paths| == n then [ordered[0]] else [];
      KeysConcat(w, WithSize(ordered[1..], n));
    }
  }

  /** Sets of equal size are listed in first-seen key order. */
  lemma ListingKeepsTies(filtered: seq<Group>, verbose: bool, n: nat)
    ensures KeysWithCount(Listing(filtered, verbose), n) == Keys(WithSize(filtered, n))
  {
    NumberKeepsTies(SortBySize(filtered), 1, verbose, n);
    SortBySizeIsStable(filtered, n);
  }

  /** Every reported group is listed. */
  lemma ListingListsEveryGroup(filtered: seq<Group>, verbose: bool, g: Group)
    requires g in filtered
    ensures exists i | 0 <= i < |Listing(filtered, verbose)| :: Listing(filtered, verbose)[i].key == g.key
  {
    var ordered := SortBySize(filtered);
    assert g in multiset(ordered);
    var i :| 0 <= i < |ordered| && ordered[i] == g;
    assert Listing(filtered, verbose)[i].key == g.key;
  }

  /** Every entry shows a reported group: its decoded size, its copy count,
      and all of its paths, sorted. */
  lemma ListingEntryShowsGroup(filtered: seq<Group>, verbose: bool, i: nat)
    requires i < |filtered|
    ensures var e := Listing(filtered, verbose)[i];
      && e.size == FormatSize(e.key)
      && exists g | g in filtered :: g.key == e.key && Shows(e, g, verbose)
  {
    var ordered := SortBySize(filtered);
    var g := ordered[i];
    assert g in multiset(ordered);
  }

  /** When every reported group has at least `t` paths, so does every entry. */
  lemma ListingCountsAtLeast(filtered: seq<Group>, verbose: bool, t: int)
    requires forall g | g in filtered :: |g.paths| >= t
    ensures forall i | 0 <= i < |Listing(filtered, verbose)| :: Listing(filtered, verbose)[i].count >= t
  {
    forall i | 0 <= i < |Listing(filtered, verbose)|
      ensures Listing(filtered, verbose)[i].count >= t
    {
      ListingEntryShowsGroup(filtered, verbose, i);
    }
  }

  /** An entry shows group `g`: its copy count, and its paths sorted, in full
      with `--verbose` and elided to 70 characters without. */
  predicate Shows(e: Entry, g: Group, verbose: bool) {
    && e.count == |g.paths|
    && |e.shown| == |g.paths|
    && (verbose ==> Sorted(e.shown) && multiset(e.shown) == multiset(g.paths))
    && (!verbose ==> forall j | 0 <= j < |e.shown| :: e.shown[j] == Elide(SortPaths(g.paths)[j]))
  }

  // ---- the whole run ----

  /** The command-line flags that shape the result. */
  datatype Options = Options(verbose: bool, summary: bool, minDuplicates: int)

  /** What a run shows: the summary, the no-duplicates notice, or the listing. */
  datatype Outcome = SummaryOnly(summary: Summary) | NoDuplicates | Detail(entries: seq<Entry>)

  /** `main` after the inventory is read, without the printing. */
  function Run(lines: seq<string>, o: Options): (r: Outcome)
    ensures r.SummaryOnly? <==> o.summary
    ensures r.Detail? ==> |r.entries| > 0
    ensures r.Detail? ==> forall i | 0 <= i < |r.entries| ::
      r.entries[i].index == i + 1 && r.entries[i].count >= Max(2, o.minDuplicates)
  {
    var all := Build(Records(lines));
    var filtered := Reported(all, o.minDuplicates);
    if o.summary then SummaryOnly(Summarize(all, filtered))
    else if |filtered| == 0 then NoDuplicates
    else
      ListingCountsAtLeast(filtered, o.verbose, Max(2, o.minDuplicates));
      Detail(Listing(filtered, o.verbose))
  }

  /** Nothing is reported exactly when no key has max(2, m) records. */
  lemma NothingReportedForRecords(rs: seq<Record>, m: int)
    ensures Reported(Build(rs), m) == [] <==> forall k :: |Select(rs, k)| < Max(2, m)
  {
    var t := Max(2, m);
    NothingReported(Build(rs), m);
    GroupSizesAreKeyCounts(rs, t);
    if Reported(Build(rs), m) == [] {
      assert !(exists k :: |Select(rs, k)| >= t);
    } else {
      var g :| g in Build(rs) && |g.paths| >= t;
      var k :| |Select(rs, k)| >= t;
    }
  }

  /** The notice appears exactly when no key has max(2, m) kept lines. */
  lemma RunReportsNoDuplicates(lines: seq<string>, o: Options)
    ensures Run(lines, o) == NoDuplicates <==>
      !o.summary && forall k :: |Select(Records(lines), k)| < Max(2, o.minDuplicates)
  {
    NothingReportedForRecords(Records(lines), o.minDuplicates);
    assert Run(lines, o) == NoDuplicates <==>
      !o.summary && Reported(Build(Records(lines)), o.minDuplicates) == [];
  }

  /** In summary mode the total is the number of kept lines, and the other
      counts obey `SummaryCounts`. */
  lemma RunSummary(lines: seq<string>, o: Options)
    requires o.summary
    ensures Run(lines, o).SummaryOnly?
    ensures Run(lines, o).summary.totalFiles == |KeptLines(lines)|
    ensures Run(lines, o).summary.duplicateFiles <= Run(lines, o).summary.totalFiles
    ensures Run(lines, o).summary.wastedCopies >= Run(lines, o).summary.duplicateGroups
  {
    var all := Build(Records(lines));
    GroupingCompleteAndDisjoint(Records(lines));
    RecordsRejoinToKeptLines(lines);
    SummaryCounts(all, o.minDuplicates);
  }
}

=== FILE: text.dfy ===
/** String primitives with the meaning Python's `str` gives them: whitespace,
    substring search, and `split` on a separator. */
module Text {

  datatype Option<+T> = None | Some(value: T)

  /** The characters for which Python's `str.isspace()` holds; `str.strip()`
      and `int()` discard exactly these at either end of a string. */
  predicate IsSpace(c: char) {
    || ('\t' <= c <= '\r')
    || ('\U{1c}' <= c <= '\U{1f}')
    || c == ' ' || c == '\U{85}' || c == '\U{a0}' || c == '\U{1680}'
    || ('\U{2000}' <= c <= '\U{200a}')
    || c == '\U{2028}' || c == '\U{2029}' || c == '\U{202f}' || c == '\U{205f}'
    || c == '\U{3000}'
  }

  /** `not s.strip()`: the string holds whitespace only, or nothing. */
  predicate IsBlank(s: string) {
    forall i | 0 <= i < |s| :: IsSpace(s[i])
  }

  /** `pat` occurs in `s` starting at index `j`. */
  predicate OccursAt(s: string, pat: string, j: nat) {
    j + |pat| <= |s| && s[j..j + |pat|] == pat
  }

  /** Python's `pat in s`. */
  predicate Contains(s: string, pat: string) {
    exists j: nat | j <= |s| :: OccursAt(s, pat, j)
  }

  /** Python's `s.find(pat, from)`, with `None` for -1: the least index at or
      after `from` where `pat` occurs. */
  function FindFrom(s: string, pat: string, from: nat): (r: Option<nat>)
    ensures r.Some? ==> from <= r.value && OccursAt(s, pat, r.value)
    ensures r.Some? ==> forall j: nat | from <= j < r.value :: !OccursAt(s, pat, j)
    ensures r.None? ==> forall j: nat | from <= j :: !OccursAt(s, pat, j)
    decreases |s| - from
  {
    if from + |pat| > |s| then None
    else if s[from..from + |pat|] == pat then Some(from)
    else FindFrom(s, pat, from + 1)
  }

  /** A one-character pattern occurs exactly where that character stands. */
  lemma OccursAtChar(s: string, c: char, j: nat)
    ensures OccursAt(s, [c], j) <==> j < |s| && s[j] == c
  {
    if j < |s| {
      assert s[j..j + 1] == [s[j]];
    }
  }

  /** An occurrence inside a prefix is an occurrence in the whole string. */
  lemma OccursInPrefix(s: string, pat: string, i: nat, j: nat)
    requires i <= |s|
    requires OccursAt(s[..i], pat, j)
    ensures OccursAt(s, pat, j)
  {
    assert s[..i][j..j + |pat|] == s[j..j + |pat|];
  }

  /** `sep.join(pieces)`. */
  function Join(pieces: seq<string>, sep: string): string
    requires |pieces| >= 1
  {
    if |pieces| == 1 then pieces[0] else pieces[0] + sep + Join(pieces[1..], sep)
  }

  /** Python's `s.split(sep)` for a non-empty separator: the pieces between
      the occurrences of `sep`, found left to right without overlap. */
  function Split(s: string, sep: string): (pieces: seq<string>)
    requires |sep| > 0
    ensures |pieces| >= 1
    ensures Join(pieces, sep) == s
    ensures forall k | 0 <= k < |pieces| :: !Contains(pieces[k], sep)
    ensures |pieces| >= 2 <==> Contains(s, sep)
    decreases |s|
  {
    match FindFrom(s, sep, 0)
    case None => [s]
    case Some(i) =>
      var rest := Split(s[i + |sep|..], sep);
      assert s == s[..i] + sep + s[i + |sep|..] by {
        assert s[i..i + |sep|] == sep;
        assert s == s[..i] + s[i..i + |sep|] + s[i + |sep|..];
      }
      assert !Contains(s[..i], sep) by {
        forall j: nat | j <= i && OccursAt(s[..i], sep, j)
          ensures false
        {
          OccursInPrefix(s, sep, i, j);
        }
      }
      [s[..i]] + rest
  }
}
